=== FILE: README.md ===
# Drift detection and business KPIs, modelled in Dafny

This project models the decision logic of a set of exploratory-data-analysis
helper scripts. Two pieces are covered:

- **Drift detection.** A "new" table and a "reference" table are compared
  column by column. For each candidate column, the missing values are
  dropped on each side. A minimum-sample guard of 10 applies. Then a
  two-sample Kolmogorov–Smirnov (KS) test runs, and the column is flagged as
  drifted when its p-value is below `alpha`. The routine exists twice:
  - `edaautopy.py` also assigns an interpretation and a severity tier, and
    sorts the rows by p-value;
  - `eda_tools.py` is a slimmer copy that keeps only the column, the
    statistic, the p-value and the drift flag, in column order.
- **Business KPIs.** `business_kpis` in `eda_tools.py` picks a revenue
  column and a customer column by first-match on name aliases. From them it
  derives a total revenue, a unique-customer count and an average revenue
  per customer.

Modules:

- `tables.dfy` (module `Tables`): the shared table model.
  - A table is a sequence of columns `(name, numeric, values)`, and a
    missing cell (None or NaN) is `None`.
  - It defines column lookup by name, dropping missing values, column
    selection, the minimum-sample guard, the drift flag and first-match
    search.
  - The KS test is an uninterpreted oracle `ks: (seq<real>, seq<real>) -> KsResult`.
    Its statistic and its p-value may each be NaN (`None`).
- `edaautopy.dfy` (module `EdaAutoPy`): the fuller detector.
  - The interpretation is a tag: insufficient data, test failed,
    drifted with a severity, or no drift.
  - The result is a `Frame` with its column names and its rows.
  - `DetectDrift` is a method whose loop mirrors the source's
    `for`/`continue`/append loop. It returns exactly `Report(...)`, whose
    own contract states what the returned frame holds.
- `eda_tools.dfy` (module `EdaTools`): the KPI helper as pure functions,
  and the slim detector as a loop method.

Points of the code's behaviour that the model keeps as written:

- **NaN results.** A NaN test result still sets `drift = p < alpha`; only
  the interpretation says the test failed. A NaN p-value therefore gives
  `drift = false`, and a NaN statistic with a numeric p-value below alpha
  gives `drift = true` (`Interpret`, `TestedRow`).
- **Sort order.** The rows are sorted on the p-value with pandas' default
  `sort_values` kind, quicksort, which is not stable. The rows with a
  missing p-value are placed after the sorted ones in their original order.
  The model promises a permutation of the unsorted rows with ascending
  p-values, and the rows with a missing p-value last and in candidate order.
  Only the order of rows with equal non-missing p-values is left open.
- **`alpha` range.** The code never checks the range of `alpha`, and the
  model accepts any real `alpha`.
- **Column names.** The empty result of `edaautopy.py` has five column
  names. A non-empty result has six, since each row record also has `note`
  (`EmptyHeader`, `RowHeader`).

## Model

| member | source | states |
|---|---|---|
| `Tables.ColumnIndex` | edaautopy.py:21-23 | When the name is among the reference table's columns, it gives the position of the first column carrying that name, whose values are then compared. |
| `Tables.DropNa` | edaautopy.py:22-23 | After dropping missing values, the length is the number of non-missing cells. A value is kept exactly when it was present. |
| `Tables.DropNaAppend` | edaautopy.py:22-23 | Dropping missing values keeps the order: it distributes over concatenation. |
| `Tables.Filter` | edaautopy.py:18-21 | Column selection returns only accepted columns of the input and is never longer than it. |
| `Tables.FilterCount` | edaautopy.py:18-21 | Selection keeps every accepted column exactly as often as it occurs, and drops the others. |
| `Tables.FilterSnoc` | edaautopy.py:20-21 | Selecting over one more column appends that column exactly when it is accepted. |
| `Tables.FilterAppend` | edaautopy.py:18-21 | Selection keeps table order: it distributes over concatenation. |
| `Tables.SelectColumns` | edaautopy.py:18 | With `numeric_only` only numeric columns survive; otherwise any column of the table may. |
| `Tables.SharedWith` | edaautopy.py:21 | Only columns whose name is also in the reference table pass. |
| `Tables.Candidates` | edaautopy.py:18-21 | Every candidate column comes from the new table, is selected, and has its name in the reference table. |
| `Tables.CandidatesCount` | edaautopy.py:18-21 | Each selected column of the new table with a name in the reference table is a candidate exactly as often as it occurs. No other column is a candidate. |
| `Tables.CandidatesAppend` | edaautopy.py:18-21 | Candidates keep the column order of the new table. |
| `Tables.Samples` | edaautopy.py:22-23 | Each cleaned sample has exactly as many values as its column has non-missing cells: the new column itself, and the first reference column of its name. |
| `Tables.BelowMinimum` | edaautopy.py:24 | The minimum-sample guard: either cleaned sample has fewer than 10 values. |
| `Tables.GuardCountsPresentCells` | edaautopy.py:22-24 | The guard fires exactly when the new column, or the reference column of its name, has fewer than 10 non-missing cells. Missing cells never count towards the minimum. |
| `Tables.DriftFlag` | edaautopy.py:28 | The drift flag: the p-value is a number below alpha. A NaN p-value compares false. |
| `Tables.DriftFlagMonotone` | edaautopy.py:28 | A NaN p-value never sets the flag, and raising alpha never clears it. |
| `Tables.SharedWithNext` | edaautopy.py:20-21 | One more loop step adds the column to the candidates exactly when its name is in the reference table. |
| `Tables.FirstWhere` | eda_tools.py:17-18 | First-match search: None exactly when no column qualifies. Otherwise it gives a qualifying position with no qualifying column before it. |
| `EdaAutoPy.SeverityOf` | edaautopy.py:33 | "large" exactly above 0.5, "moderate" exactly on (0.2, 0.5], "small" exactly at 0.2 or below. The three bands cover every statistic without overlap. |
| `EdaAutoPy.SeverityMonotone` | edaautopy.py:33 | A larger statistic never gets a milder tier. |
| `EdaAutoPy.Interpret` | edaautopy.py:30-39 | "Test failed" exactly when the statistic or the p-value is NaN; this check comes before drift. Otherwise "drifted" or "no drift" follows the flag. A drift's severity is that of the statistic. Never "insufficient". |
| `EdaAutoPy.ColumnRow` | edaautopy.py:22-40 | The row appended for a column carries that column's name. |
| `EdaAutoPy.GuardedRow` | edaautopy.py:24-26 | With fewer than 10 present values on either side, the row is the fixed too-few-samples row: no statistic, no p-value, no drift. It is the same for every oracle, so the test plays no part. |
| `EdaAutoPy.TestedRow` | edaautopy.py:27-40 | A tested row carries the oracle's statistic and p-value unchanged, with an empty note. Drift holds exactly when the p-value is a number below alpha, so a NaN p-value gives no drift. |
| `EdaAutoPy.DriftOnlyWhenTested` | edaautopy.py:24-33 | Drift is never reported on insufficient data or on a NaN p-value. "Insufficient" appears exactly when the guard fires. A drift interpretation comes with the flag and with the statistic's severity. |
| `EdaAutoPy.Rows` | edaautopy.py:19-40 | One row per candidate column, in candidate order, each the row of its column. |
| `EdaAutoPy.RowsNext` | edaautopy.py:19-40 | Appending a candidate column appends its row. |
| `EdaAutoPy.InsertByP` | edaautopy.py:41 | Inserting into p-value-ordered rows keeps them ordered and adds exactly that row. |
| `EdaAutoPy.InsertKeepsNoneOrder` | edaautopy.py:41 | Inserting a row with a missing p-value puts it first among the rows with a missing p-value. Inserting any other row leaves those rows alone. |
| `EdaAutoPy.NoneRowsCons` | edaautopy.py:41 | A row in front joins the rows with a missing p-value exactly when its own p-value is missing. |
| `EdaAutoPy.SortByP` | edaautopy.py:41 | The sort returns the same rows, ascending by p-value, with missing p-values last. The rows with a missing p-value keep their input order. |
| `EdaAutoPy.CountDrift` | edaautopy.py:49 | The drift count never exceeds the number of rows. |
| `EdaAutoPy.CountDriftAppend` | edaautopy.py:49 | The drift count adds up over concatenation. |
| `EdaAutoPy.CountDriftSplit` | edaautopy.py:49 | One row adds its own flag to the count, wherever it stands. |
| `EdaAutoPy.CountDriftPermutation` | edaautopy.py:41-50 | Reordering the rows, as the sort does, leaves the drift count unchanged. |
| `EdaAutoPy.Summary` | edaautopy.py:49-50 | The summary's drift figure is at most its total, and the total is the number of rows. |
| `EdaAutoPy.ResultFrame` | edaautopy.py:41-50 | A non-empty result holds the same rows sorted by p-value, under the six-name header. The rows with a missing p-value come last, in their input order. An empty result is an empty frame with the five fixed names. Either way the summary counts the drifted rows out of all rows. |
| `EdaAutoPy.Report` | edaautopy.py:14-50 | The returned frame has one row per candidate column: the same rows as the candidates' rows, in p-value order. The rows with a missing p-value come last, in candidate order. It has the fixed five-name header exactly when there are no candidates. Its summary is the number of drifted candidates out of all candidates. |
| `EdaAutoPy.DetectDrift` | edaautopy.py:14-41 | The loop with its guard and `continue`, followed by the sort-or-empty step, returns exactly that report. |
| `EdaTools.Lower` | eda_tools.py:17-18 | Lower-casing turns each upper-case ASCII letter into its lower-case letter, so none is left. It keeps every other character in place, and keeps the length. |
| `EdaTools.LowerIdempotent` | eda_tools.py:17-18 | Lower-casing twice is lower-casing once. |
| `EdaTools.Contains` | eda_tools.py:17-18 | Python's substring `in`: the alias starts the name or occurs in the rest of it. |
| `EdaTools.ContainsAt` | eda_tools.py:17-18 | The alias is in the name exactly when it occurs at some position of the name. |
| `EdaTools.MatchesAnyIgnoresCase` | eda_tools.py:17-18 | A name matches exactly the aliases that its lower-cased form matches, so the case of the column name never matters. |
| `EdaTools.ResolveAliases` | eda_tools.py:15-16 | A missing or empty alias list falls back to the defaults. Any other list is used as given. |
| `EdaTools.FirstMatch` | eda_tools.py:17-18 | The chosen column is the first in table order whose lower-cased name contains some alias. It is None exactly when no name does. |
| `EdaTools.FirstMatchIgnoresAliasOrder` | eda_tools.py:17-18 | Only the set of aliases matters, not their order. |
| `EdaTools.RoleKpi` | eda_tools.py:20-27 | A role's KPI is None exactly when no column matches the role's aliases. Otherwise it is the measure (the sum for revenue, the distinct count for customers) of the first matching column. |
| `EdaTools.TruthyReal` | eda_tools.py:28 | Python truthiness of the stored total: present and non-zero. |
| `EdaTools.TruthyNat` | eda_tools.py:28 | Python truthiness of the stored customer count: present and non-zero. |
| `EdaTools.AvgRevenuePerCustomer` | eda_tools.py:28-31 | The average is defined exactly when the total is non-zero and the customer count is non-zero. Then the average times the count gives back the total, so the `max(1, n)` guard never changes the divisor. |
| `EdaTools.BusinessKpis` | eda_tools.py:14-32 | The stored total revenue and unique-customer count are None exactly when their role has no matching column, after alias fallback. Otherwise they are the sum and the distinct count of the first matching column. The average follows both truthiness tests. |
| `EdaTools.CustomerIdIsFound` | eda_tools.py:16-18 | With the default aliases, a column named "CustomerID" matches the customer role despite the case difference. |
| `EdaTools.RecordFor` | eda_tools.py:40-46 | The record appended for a column carries that column's name. |
| `EdaTools.GuardedRecord` | eda_tools.py:42-44 | With fewer than 10 present values on either side, the record has no statistic, no p-value and no drift, whatever the oracle would say. |
| `EdaTools.TestedRecord` | eda_tools.py:45-46 | A tested record keeps the oracle's statistic and p-value unchanged. Drift holds exactly when the p-value is a number below alpha. |
| `EdaTools.RecordAgreesWithFullRow` | eda_tools.py:40-46 | For every column, the slim record and the fuller row agree on the column, statistic, p-value and drift flag. |
| `EdaTools.Records` | eda_tools.py:37-47 | One record per candidate column, in candidate order, each the record of its column. |
| `EdaTools.RecordsNext` | eda_tools.py:37-46 | Appending a candidate column appends its record. |
| `EdaTools.RecordsAgreeWithRows` | eda_tools.py:35-47 | Before the fuller detector sorts, its rows and the slim records agree position by position on every shared field. |
| `EdaTools.DetectDrift` | eda_tools.py:35-47 | Exactly one record per numeric column of the new table that is also in the reference table, in that table's column order, unsorted. |

## Left out

- The Kolmogorov–Smirnov computation is a foreign floating-point routine. It is an arbitrary function of the two cleaned samples, so the model does not state that the statistic and the p-value lie in [0, 1].
- The numeric dtype of a column is given as a flag, not inferred. Cells are reals or missing. Text columns that reach the test, and the error the test then raises, are not modelled. This happens when `numeric_only` is false, or through a non-numeric reference column (next line).
- Floating point: the model uses exact reals. The `float(...)` and `int(...)` conversions, the rounding in the average's division, and the infinities that a float sum can produce are not modelled.
- The column sum and the distinct count in the KPI helper are passed in as functions of the column. They are foreign dataframe operations.
- Lower-casing covers the ASCII letters only. Python's full Unicode case mapping is not modelled.
- `EdaAutoPy.ColumnRow`, `EdaTools.RecordFor`: repeated column names are not modelled. In the source, `df_new[col]` and `df_ref[col]` then return a sub-frame rather than a column, and `dropna` and `len` act on whole rows of it. The model instead reads each candidate column's own values from the new table, so two new-table columns of the same name each keep their own cells. From the reference table it reads the first column of that name. The dtype of that reference column is never checked, either in the source or in the model. Only the new table's columns are filtered, and `eda_tools.py` has no `numeric_only`. When the reference column of a candidate's name holds text or dates and has at least 10 present cells, `ks_2samp` raises in the source, whatever `numeric_only` is. The model produces a row from the oracle's result instead.
- `EdaTools.RoleKpi`, `EdaTools.BusinessKpis`: a repeated first-matched column name is not modelled. In the source, `df[revenue_col]` is then a sub-frame, and `float(...sum())` and `int(...nunique())` raise a TypeError. The model instead returns the measure of the first column carrying that name. Column dtypes are not checked either. When the first column whose name matches a revenue alias is not numeric, `float(...sum())` raises in the source: a text column sums to a joined string (ValueError), and a datetime column raises a TypeError. The model instead returns `sum` of that column. The customer count is not affected, since `nunique` works on any dtype.
- `FirstMatch` gives the matched column's position. In the source, `next(...)` yields the column's name, and the column is then looked up by that name; for a name that occurs once, that is the same column.
- `EdaAutoPy.ResultFrame`, `EdaAutoPy.Report`: the frame's index labels are not modelled. After the sort, each row of the source's frame keeps its position among the unsorted results as its label; `Frame` keeps only the column names and the rows.
- Default arguments (`alpha=0.05`, `numeric_only=True`) are ordinary parameters.
- `verbose`, printing and styled display are not modelled. Neither are the interpretation text with its formatted numbers, nor the summary and recommendation prose. The interpretation is a tag, and the summary's two figures are `EdaAutoPy.Summary`.
- `EdaTools.DetectDrift`: the empty result is an empty sequence of records. The source's empty frame, which has no column names, is not modelled.
- `explain_features`, the SHAP, RandomForest and profiling imports, and the interpreter-path print are not modelled. They are machine-learning and plotting libraries that are not visible here.
- sqlserver_automation.py is not part of this model: it is database connection, SQL text and plotting. dashboard_web_automation.py is not part of this model either: it is a web UI with file upload and a password check.

=== FILE: eda_tools.dfy ===
/** The reusable helpers of eda_tools.py: the business KPI picker and the
    slimmer drift detector, whose rows carry only the column, the statistic,
    the p-value and the drift flag, and are left in column order. */
module EdaTools {
  import opened Tables
  import EdaAutoPy

  // ---------------------------------------------------------------------
  // business_kpis
  // ---------------------------------------------------------------------

  const DefaultRevenueAliases: seq<string> := ["revenue", "amount", "sales", "total"]
  const DefaultCustomerAliases: seq<string> := ["customerid", "customer_id", "client_id", "customer"]

  /** The three KPIs; None where the source stores None. */
  datatype Kpis = Kpis(
    totalRevenue: Option<real>,
    uniqueCustomers: Option<nat>,
    avgRevenuePerCustomer: Option<real>)

  /** Lower-casing, on the ASCII letters. */
  function LowerChar(ch: char): char
  {
    if 'A' <= ch <= 'Z' then (ch as int + 32) as char else ch
  }

  /** Lower-casing a name: each upper-case ASCII letter becomes its
      lower-case letter, so none is left; every other character stays where
      it was, and nothing is added or removed. */
  function Lower(s: string): (r: string)
    ensures |r| == |s|
    ensures forall i :: 0 <= i < |r| ==> !('A' <= r[i] <= 'Z')
    ensures forall i :: 0 <= i < |s| && !('A' <= s[i] <= 'Z') ==> r[i] == s[i]
    ensures forall i :: 0 <= i < |s| && 'A' <= s[i] <= 'Z' ==> r[i] == (s[i] as int + 32) as char
  {
    seq(|s|, i requires 0 <= i < |s| => LowerChar(s[i]))
  }

  /** Lower-casing twice is lower-casing once. */
  lemma LowerIdempotent(s: string)
    ensures Lower(Lower(s)) == Lower(s)
  {
    var l := Lower(s);
    assert forall i :: 0 <= i < |l| ==> Lower(l)[i] == l[i];
  }

  /** Substring test: `k` occurs in `s` as a contiguous substring,
      that is, `k` starts `s` or occurs in what follows its first character. */
  predicate Contains(s: string, k: string)
    decreases |s|
  {
    (|k| <= |s| && s[..|k|] == k) || (|s| > 0 && Contains(s[1..], k))
  }

  /** `k` occurs in `s` starting at position `i`. */
  predicate At(s: string, k: string, i: int)
  {
    0 <= i && i + |k| <= |s| && s[i..i + |k|] == k
  }

  /** The recursive substring test agrees with the positional one: `k` is
      in `s` exactly when it occurs at some position of `s`. */
  lemma {:induction false} ContainsAt(s: string, k: string)
    ensures Contains(s, k) <==> exists i :: At(s, k, i)
    decreases |s|
  {
    if |s| > 0 {
      ContainsAt(s[1..], k);
      forall i | 0 <= i
        ensures At(s[1..], k, i) <==> At(s, k, i + 1)
      {
        if i + |k| <= |s[1..]| {
          assert s[1..][i..i + |k|] == s[i + 1..i + 1 + |k|];
        }
      }
      if exists i :: At(s, k, i) {
        var i :| At(s, k, i);
        if i > 0 {
          assert At(s[1..], k, i - 1);
        }
      }
      if Contains(s[1..], k) {
        var i :| At(s[1..], k, i);
        assert At(s, k, i + 1);
      }
    } else {
      if exists i :: At(s, k, i) {
        var i :| At(s, k, i);
        assert i == 0 && |k| == 0;
      }
    }
    if |k| <= |s| && s[..|k|] == k {
      assert At(s, k, 0);
    }
  }

  /** Some alias occurs in the lower-cased column name. */
  predicate MatchesAny(name: string, aliases: seq<string>)
  {
    exists k :: k in aliases && Contains(Lower(name), k)
  }

  /** Matching ignores case: a name matches exactly the aliases its
      lower-cased form matches. */
  lemma MatchesAnyIgnoresCase(name: string, aliases: seq<string>)
    ensures MatchesAny(Lower(name), aliases) <==> MatchesAny(name, aliases)
  {
    LowerIdempotent(name);
  }

  /** Alias fallback: a missing or empty alias list falls back to the
      defaults; any other list is used as given. */
  function ResolveAliases(given: Option<seq<string>>, defaults: seq<string>): (r: seq<string>)
    ensures given.Some? && given.value != [] ==> r == given.value
    ensures given.None? || given.value == [] ==> r == defaults
  {
    if given.Some? && given.value != [] then given.value else defaults
  }

  /** The column chosen for a role, as its position: the first column, in table order, whose
      lower-cased name contains some alias; None when no column does. */
  function FirstMatch(df: Table, aliases: seq<string>): (r: Option<nat>)
    ensures r.None? <==> forall i :: 0 <= i < |df| ==> !MatchesAny(df[i].name, aliases)
    ensures r.Some? ==> r.value < |df| && MatchesAny(df[r.value].name, aliases)
    ensures r.Some? ==> forall j :: 0 <= j < r.value ==> !MatchesAny(df[j].name, aliases)
  {
    FirstWhere(df, (c: Column) => MatchesAny(c.name, aliases))
  }

  /** Only the set of aliases matters, not their order or repetitions: the
      choice is driven by the column order alone. */
  lemma FirstMatchIgnoresAliasOrder(df: Table, a1: seq<string>, a2: seq<string>)
    requires forall k :: k in a1 <==> k in a2
    ensures FirstMatch(df, a1) == FirstMatch(df, a2)
  {
    assert forall i :: 0 <= i < |df| ==> (MatchesAny(df[i].name, a1) <==> MatchesAny(df[i].name, a2));
  }

  /** Python truthiness of the two stored KPI values. */
  predicate TruthyReal(x: Option<real>) { x.Some? && x.value != 0.0 }
  predicate TruthyNat(x: Option<nat>) { x.Some? && x.value != 0 }

  /** A KPI read off the column found for a role: `measure` (the sum for
      revenue, the distinct count for customers) applied to the first column
      matching the role's aliases, or None exactly when no column name matches. */
  function RoleKpi<T>(df: Table, aliases: seq<string>, measure: Column -> T): (v: Option<T>)
    ensures v.None? <==> forall i :: 0 <= i < |df| ==> !MatchesAny(df[i].name, aliases)
    ensures v.Some? ==> FirstMatch(df, aliases).Some? && v.value == measure(df[FirstMatch(df, aliases).value])
  {
    var col := FirstMatch(df, aliases);
    if col.Some? then Some(measure(df[col.value])) else None
  }

  /** Total over the larger of 1 and the count, when both are truthy, else None. Whenever it is
      defined the divisor is the customer count itself, so the average times
      the customer count gives back the total revenue. */
  function AvgRevenuePerCustomer(total: Option<real>, unique: Option<nat>): (avg: Option<real>)
    ensures avg.Some? <==> TruthyReal(total) && TruthyNat(unique)
    ensures avg.Some? ==> avg.value * (unique.value as real) == total.value
  {
    if TruthyReal(total) && TruthyNat(unique) then
      var divisor := if unique.value > 1 then unique.value else 1;
      Some(total.value / divisor as real)
    else None
  }

  /** The KPI helper of eda_tools.py. The column sum
      and the distinct count are foreign dataframe operations, passed in. */
  function BusinessKpis(df: Table, revenueAliases: Option<seq<string>>, customerAliases: Option<seq<string>>,
                        sum: Column -> real, nunique: Column -> nat): (k: Kpis)
    ensures var rev := ResolveAliases(revenueAliases, DefaultRevenueAliases);
            (k.totalRevenue.None? <==> forall i :: 0 <= i < |df| ==> !MatchesAny(df[i].name, rev))
            && (k.totalRevenue.Some? ==> k.totalRevenue.value == sum(df[FirstMatch(df, rev).value]))
    ensures var cust := ResolveAliases(customerAliases, DefaultCustomerAliases);
            (k.uniqueCustomers.None? <==> forall i :: 0 <= i < |df| ==> !MatchesAny(df[i].name, cust))
            && (k.uniqueCustomers.Some? ==> k.uniqueCustomers.value == nunique(df[FirstMatch(df, cust).value]))
    ensures k.avgRevenuePerCustomer.Some? <==> TruthyReal(k.totalRevenue) && TruthyNat(k.uniqueCustomers)
    ensures k.avgRevenuePerCustomer == AvgRevenuePerCustomer(k.totalRevenue, k.uniqueCustomers)
  {
    var rev := ResolveAliases(revenueAliases, DefaultRevenueAliases);
    var cust := ResolveAliases(customerAliases, DefaultCustomerAliases);
    var total := RoleKpi(df, rev, sum);
    var unique := RoleKpi(df, cust, nunique);
    Kpis(total, unique, AvgRevenuePerCustomer(total, unique))
  }

  /** With the default aliases a column named 'CustomerID' is found as the
      customer column even though the case differs. */
  lemma CustomerIdIsFound()
    ensures MatchesAny("CustomerID", DefaultCustomerAliases)
  {
    var name := Lower("CustomerID");
    assert name == "customerid";
    assert Contains(name, "customerid");
    assert "customerid" in DefaultCustomerAliases;
  }

  // ---------------------------------------------------------------------
  // detect_drift
  // ---------------------------------------------------------------------

  /** One row of the unsorted result frame. */
  datatype DriftRecord = DriftRecord(column: string, stat: Option<real>, pValue: Option<real>, drift: bool)

  /** The record the loop body appends for a candidate column. */
  function RecordFor(c: Column, ref: Table, alpha: real, ks: KsTest): (r: DriftRecord)
    requires HasColumn(ref, c.name)
    ensures r.column == c.name
  {
    var (a, b) := Samples(c, ref);
    if BelowMinimum(a, b) then DriftRecord(c.name, None, None, false)
    else
      var out := ks(a, b);
      DriftRecord(c.name, out.stat, out.p, DriftFlag(out.p, alpha))
  }

  /** Either side with fewer than ten present values: no statistic, no
      p-value, no drift, whatever the test would say. */
  lemma GuardedRecord(c: Column, ref: Table, alpha: real, ks: KsTest)
    requires HasColumn(ref, c.name)
    requires BelowMinimum(Samples(c, ref).0, Samples(c, ref).1)
    ensures RecordFor(c, ref, alpha, ks) == DriftRecord(c.name, None, None, false)
  {
  }

  /** A tested column keeps the oracle's values and drifts exactly when the
      p-value is a number below alpha. */
  lemma TestedRecord(c: Column, ref: Table, alpha: real, ks: KsTest)
    requires HasColumn(ref, c.name)
    requires !BelowMinimum(Samples(c, ref).0, Samples(c, ref).1)
    ensures var out := ks(Samples(c, ref).0, Samples(c, ref).1);
            RecordFor(c, ref, alpha, ks) == DriftRecord(c.name, out.stat, out.p, DriftFlag(out.p, alpha))
  {
  }

  /** The two copies of the routine agree on every field the slimmer one
      keeps: column, statistic, p-value and drift flag. */
  lemma RecordAgreesWithFullRow(c: Column, ref: Table, alpha: real, ks: KsTest)
    requires HasColumn(ref, c.name)
    ensures var r, row := RecordFor(c, ref, alpha, ks), EdaAutoPy.ColumnRow(c, ref, alpha, ks);
            r.column == row.column && r.stat == row.stat && r.pValue == row.pValue && r.drift == row.drift
  {
  }

  /** The records for a list of candidate columns, one per column, in order. */
  function Records(cands: Table, ref: Table, alpha: real, ks: KsTest): (rs: seq<DriftRecord>)
    requires forall c :: c in cands ==> HasColumn(ref, c.name)
    ensures |rs| == |cands|
    ensures forall i :: 0 <= i < |cands| ==> rs[i] == RecordFor(cands[i], ref, alpha, ks)
    decreases |cands|
  {
    if cands == [] then []
    else Records(cands[..|cands| - 1], ref, alpha, ks) + [RecordFor(cands[|cands| - 1], ref, alpha, ks)]
  }

  /** One more candidate column adds its record at the end. */
  lemma RecordsNext(cands: Table, c: Column, ref: Table, alpha: real, ks: KsTest)
    requires forall d :: d in cands ==> HasColumn(ref, d.name)
    requires HasColumn(ref, c.name)
    ensures Records(cands + [c], ref, alpha, ks) == Records(cands, ref, alpha, ks) + [RecordFor(c, ref, alpha, ks)]
  {
    var next := cands + [c];
    assert next[..|next| - 1] == cands;
  }

  /** Before edaautopy.py sorts its rows, its row list and this module's
      record list agree position by position on every field both keep. */
  lemma RecordsAgreeWithRows(cands: Table, ref: Table, alpha: real, ks: KsTest)
    requires forall c :: c in cands ==> HasColumn(ref, c.name)
    ensures var rs, rows := Records(cands, ref, alpha, ks), EdaAutoPy.Rows(cands, ref, alpha, ks);
            |rs| == |rows|
            && forall i :: 0 <= i < |rs| ==>
                 rs[i].column == rows[i].column && rs[i].stat == rows[i].stat
                 && rs[i].pValue == rows[i].pValue && rs[i].drift == rows[i].drift
  {
    forall i | 0 <= i < |cands| {
      RecordAgreesWithFullRow(cands[i], ref, alpha, ks);
    }
  }

  /** The drift detector of eda_tools.py: exactly one
      record per numeric column of `df_new` also present in `df_ref`, in
      `df_new` column order, each the record of its column. */
  method DetectDrift(dfNew: Table, dfRef: Table, alpha: real, ks: KsTest) returns (records: seq<DriftRecord>)
    ensures records == Records(Candidates(dfNew, dfRef, true), dfRef, alpha, ks)
  {
    var cols := SelectColumns(dfNew, true);
    records := [];
    for i := 0 to |cols|
      invariant records == Records(SharedWith(cols[..i], dfRef), dfRef, alpha, ks)
    {
      var col := cols[i];
      SharedWithNext(cols, i, dfRef);
      ghost var done := SharedWith(cols[..i], dfRef);
      if HasColumn(dfRef, col.name) {
        RecordsNext(done, col, dfRef, alpha, ks);
        var a := DropNa(col.values);
        var b := DropNa(dfRef[ColumnIndex(dfRef, col.name)].values);
        assert (a, b) == Samples(col, dfRef);
        if |a| < MinSamples || |b| < MinSamples {
          GuardedRecord(col, dfRef, alpha, ks);
          records := records + [DriftRecord(col.name, None, None, false)];
          continue;
        }
        TestedRecord(col, dfRef, alpha, ks);
        var out := ks(a, b);
        records := records + [DriftRecord(col.name, out.stat, out.p, DriftFlag(out.p, alpha))];
      } else {
        assert SharedWith(cols[..i + 1], dfRef) == done + [] == done;
      }
    }
    assert cols[..|cols|] == cols;
    assert SharedWith(cols, dfRef) == Candidates(dfNew, dfRef, true);
  }
}

=== FILE: edaautopy.dfy ===
/** The drift detector of edaautopy.py: one row per candidate column with the
    KS statistic, the p-value, the drift flag, a note and an interpretation,
    the rows then ordered by p-value. The interpretation prose is reduced to
    its tag; printing is not modelled. */
module EdaAutoPy {
  import opened Tables

  /** How far a drifted distribution moved, read off the KS statistic. */
  datatype Severity = Small | Moderate | Large

  /** The four mutually exclusive outcomes a row can report. */
  datatype Interpretation =
    | Insufficient                // not tested: too few samples
    | TestFailed                  // tested, but the statistic or p-value is NaN
    | Drifted(severity: Severity) // tested, drift, with the size of the shift
    | NoDrift                     // tested, no significant change

  /** The note column: empty, or the too-few-samples note. */
  datatype Note = Blank | TooFewSamples

  datatype DriftRow = DriftRow(
    column: string,
    stat: Option<real>,
    pValue: Option<real>,
    drift: bool,
    note: Note,
    interpretation: Interpretation)

  /** The returned dataframe: its column names and its rows. */
  datatype Frame = Frame(header: seq<string>, rows: seq<DriftRow>)

  /** Column names of the frame built from the row records (their keys). */
  const RowHeader: seq<string> := ["column", "stat", "p_value", "drift", "note", "interpretation"]

  /** Column names given explicitly to the empty result; 'note' is not among them. */
  const EmptyHeader: seq<string> := ["column", "stat", "p_value", "drift", "interpretation"]

  /** The severity tier of a drifted column. The three bands split the whole
      range of the statistic: above 0.5, (0.2, 0.5], and 0.2 or below. */
  function SeverityOf(stat: real): (s: Severity)
    ensures s == Large <==> stat > 0.5
    ensures s == Moderate <==> 0.2 < stat <= 0.5
    ensures s == Small <==> stat <= 0.2
  {
    if stat > 0.5 then Large else if stat > 0.2 then Moderate else Small
  }

  function Rank(s: Severity): nat
  {
    match s
    case Small => 0
    case Moderate => 1
    case Large => 2
  }

  /** A larger statistic never yields a milder severity. */
  lemma SeverityMonotone(x: real, y: real)
    requires x <= y
    ensures Rank(SeverityOf(x)) <= Rank(SeverityOf(y))
  {
  }

  /** The interpretation of a tested column. A NaN statistic or p-value wins
      over both the drift and the no-drift readings, even when the drift
      flag is set; the severity is that of the statistic. */
  function Interpret(stat: Option<real>, p: Option<real>, drift: bool): (i: Interpretation)
    ensures i != Insufficient
    ensures i == TestFailed <==> stat.None? || p.None?
    ensures i.Drifted? <==> stat.Some? && p.Some? && drift
    ensures i == NoDrift <==> stat.Some? && p.Some? && !drift
    ensures i.Drifted? ==> i.severity == SeverityOf(stat.value)
  {
    if stat.None? || p.None? then TestFailed
    else if drift then Drifted(SeverityOf(stat.value))
    else NoDrift
  }

  /** The row the loop body appends for a candidate column. */
  function ColumnRow(c: Column, ref: Table, alpha: real, ks: KsTest): (r: DriftRow)
    requires HasColumn(ref, c.name)
    ensures r.column == c.name
  {
    var (a, b) := Samples(c, ref);
    if BelowMinimum(a, b) then
      DriftRow(c.name, None, None, false, TooFewSamples, Insufficient)
    else
      var out := ks(a, b);
      var drift := DriftFlag(out.p, alpha);
      DriftRow(c.name, out.stat, out.p, drift, Blank, Interpret(out.stat, out.p, drift))
  }

  /** The minimum-sample guard: fewer than ten present values on either side
      gives no statistic, no p-value, no drift and the too-few-samples note
      whatever the test would have said, so the test plays no part. */
  lemma GuardedRow(c: Column, ref: Table, alpha: real, ks: KsTest)
    requires HasColumn(ref, c.name)
    requires BelowMinimum(Samples(c, ref).0, Samples(c, ref).1)
    ensures ColumnRow(c, ref, alpha, ks) == DriftRow(c.name, None, None, false, TooFewSamples, Insufficient)
  {
  }

  /** A tested column carries the oracle's statistic and p-value unchanged,
      and drifts exactly when the p-value is a number below alpha, a NaN
      p-value therefore never drifting. */
  lemma TestedRow(c: Column, ref: Table, alpha: real, ks: KsTest)
    requires HasColumn(ref, c.name)
    requires !BelowMinimum(Samples(c, ref).0, Samples(c, ref).1)
    ensures var out := ks(Samples(c, ref).0, Samples(c, ref).1);
            var drift := DriftFlag(out.p, alpha);
            ColumnRow(c, ref, alpha, ks) == DriftRow(c.name, out.stat, out.p, drift, Blank, Interpret(out.stat, out.p, drift))
  {
  }

  /** Drift is never reported on insufficient data or on a NaN p-value, and
      a drift interpretation always comes with the drift flag set and the
      severity of the reported statistic. */
  lemma DriftOnlyWhenTested(c: Column, ref: Table, alpha: real, ks: KsTest)
    requires HasColumn(ref, c.name)
    ensures var r := ColumnRow(c, ref, alpha, ks);
            (r.drift ==> !BelowMinimum(Samples(c, ref).0, Samples(c, ref).1)
                         && r.pValue.Some? && r.pValue.value < alpha)
            && (r.interpretation == Insufficient <==> BelowMinimum(Samples(c, ref).0, Samples(c, ref).1))
            && (r.interpretation.Drifted? ==>
                  r.drift && r.stat.Some? && r.interpretation.severity == SeverityOf(r.stat.value))
  {
  }

  /** The rows for a list of candidate columns, one per column, in order. */
  function Rows(cands: Table, ref: Table, alpha: real, ks: KsTest): (rs: seq<DriftRow>)
    requires forall c :: c in cands ==> HasColumn(ref, c.name)
    ensures |rs| == |cands|
    ensures forall i :: 0 <= i < |cands| ==> rs[i] == ColumnRow(cands[i], ref, alpha, ks)
    decreases |cands|
  {
    if cands == [] then []
    else
      var init, last := cands[..|cands| - 1], cands[|cands| - 1];
      Rows(init, ref, alpha, ks) + [ColumnRow(last, ref, alpha, ks)]
  }

  /** The order of the final sort on the p-value column: ascending, missing last. */
  predicate PLe(x: Option<real>, y: Option<real>)
  {
    match (x, y)
    case (Some(u), Some(v)) => u <= v
    case (Some(_), None) => true
    case (None, None) => true
    case (None, Some(_)) => false
  }

  predicate SortedByP(rows: seq<DriftRow>)
  {
    forall i, j :: 0 <= i < j < |rows| ==> PLe(rows[i].pValue, rows[j].pValue)
  }

  /** Inserts one row into rows already in p-value order. */
  function InsertByP(x: DriftRow, rows: seq<DriftRow>): (r: seq<DriftRow>)
    requires SortedByP(rows)
    ensures SortedByP(r)
    ensures multiset(r) == multiset(rows) + multiset{x}
    decreases |rows|
  {
    if rows == [] then [x]
    else if PLe(x.pValue, rows[0].pValue) then [x] + rows
    else
      var rest := InsertByP(x, rows[1..]);
      assert rows == [rows[0]] + rows[1..];
      assert forall y :: y in rest ==> PLe(rows[0].pValue, y.pValue) by {
        forall y | y in rest ensures PLe(rows[0].pValue, y.pValue) {
          assert y in multiset(rest);
          if y != x {
            assert y in multiset(rows[1..]);
            var k :| 0 <= k < |rows[1..]| && rows[1..][k] == y;
            assert rows[k + 1] == y;
          }
        }
      }
      [rows[0]] + rest
  }

  /** The rows whose p-value is missing, in their order. */
  function NoneRows(rows: seq<DriftRow>): seq<DriftRow>
    decreases |rows|
  {
    if rows == [] then []
    else (if rows[0].pValue.None? then [rows[0]] else []) + NoneRows(rows[1..])
  }

  /** One row in front adds itself to the missing-p-value rows when its own
      p-value is missing. */
  lemma NoneRowsCons(y: DriftRow, rows: seq<DriftRow>)
    ensures NoneRows([y] + rows) == (if y.pValue.None? then [y] else []) + NoneRows(rows)
  {
    assert ([y] + rows)[1..] == rows;
  }

  /** Insertion puts a row with a missing p-value in front of the rows with
      a missing p-value already there, and leaves their order alone. */
  lemma {:induction false} InsertKeepsNoneOrder(x: DriftRow, rows: seq<DriftRow>)
    requires SortedByP(rows)
    ensures NoneRows(InsertByP(x, rows)) == (if x.pValue.None? then [x] else []) + NoneRows(rows)
    decreases |rows|
  {
    if rows == [] {
      NoneRowsCons(x, []);
    } else if PLe(x.pValue, rows[0].pValue) {
      assert InsertByP(x, rows) == [x] + rows;
      NoneRowsCons(x, rows);
    } else {
      var head, tail := rows[0], rows[1..];
      assert head.pValue.Some?;
      assert SortedByP(tail) by {
        forall i, j | 0 <= i < j < |tail| ensures PLe(tail[i].pValue, tail[j].pValue) {
          assert tail[i] == rows[i + 1] && tail[j] == rows[j + 1];
        }
      }
      var rest := InsertByP(x, tail);
      assert InsertByP(x, rows) == [head] + rest;
      InsertKeepsNoneOrder(x, tail);
      NoneRowsCons(head, rest);
      assert rows == [head] + tail;
      NoneRowsCons(head, tail);
    }
  }

  /** The final sort on the p-value column: the same rows, ascending by
      p-value with missing p-values last, and the rows with a missing p-value
      in their original order, as pandas places missing keys after the sorted
      ones. The relative order of rows with equal p-values is not promised. */
  function SortByP(rows: seq<DriftRow>): (r: seq<DriftRow>)
    ensures SortedByP(r)
    ensures multiset(r) == multiset(rows)
    ensures |r| == |rows|
    ensures NoneRows(r) == NoneRows(rows)
    decreases |rows|
  {
    if rows == [] then []
    else
      assert rows == [rows[0]] + rows[1..];
      InsertKeepsNoneOrder(rows[0], SortByP(rows[1..]));
      InsertByP(rows[0], SortByP(rows[1..]))
  }

  /** The sum of the drift column: the number of drifted rows. */
  function CountDrift(rows: seq<DriftRow>): (n: nat)
    ensures n <= |rows|
    decreases |rows|
  {
    if rows == [] then 0
    else CountDrift(rows[..|rows| - 1]) + if rows[|rows| - 1].drift then 1 else 0
  }

  lemma {:induction false} CountDriftAppend(a: seq<DriftRow>, b: seq<DriftRow>)
    ensures CountDrift(a + b) == CountDrift(a) + CountDrift(b)
    decreases |b|
  {
    if b == [] {
      assert a + b == a;
    } else {
      var init := b[..|b| - 1];
      var ab := a + b;
      assert ab[..|ab| - 1] == a + init && ab[|ab| - 1] == b[|b| - 1];
      CountDriftAppend(a, init);
    }
  }

  /** One row contributes its own flag to the count, wherever it stands. */
  lemma CountDriftSplit(left: seq<DriftRow>, x: DriftRow, right: seq<DriftRow>)
    ensures CountDrift(left + [x] + right) == CountDrift(left + right) + if x.drift then 1 else 0
  {
    assert CountDrift([x]) == if x.drift then 1 else 0 by {
      assert [x][..0] == [];
    }
    CountDriftAppend(left, right);
    CountDriftAppend(left, [x]);
    CountDriftAppend(left + [x], right);
  }

  /** Reordering the rows does not change the drift count. */
  lemma {:induction false} CountDriftPermutation(a: seq<DriftRow>, b: seq<DriftRow>)
    requires multiset(a) == multiset(b)
    ensures CountDrift(a) == CountDrift(b)
    decreases |a|
  {
    if a == [] {
      assert |multiset(b)| == 0;
    } else {
      var init, x := a[..|a| - 1], a[|a| - 1];
      assert multiset(init) == multiset(a) - multiset{x} by {
        assert a == init + [x];
      }
      assert x in multiset(b);
      var j :| 0 <= j < |b| && b[j] == x;
      var left, right := b[..j], b[j + 1..];
      assert b == left + [x] + right;
      CountDriftSplit(left, x, right);
      assert multiset(left + right) == multiset(b) - multiset{x};
      CountDriftPermutation(init, left + right);
    }
  }

  /** The figures of the printed summary line: the drift count (0 when the
      frame has no drift column) and the number of rows. */
  function Summary(f: Frame): (s: (nat, nat))
    ensures s.0 <= s.1 == |f.rows|
  {
    (if "drift" in f.header then CountDrift(f.rows) else 0, |f.rows|)
  }

  /** The returned dataframe: the rows sorted by p-value, or, when there are
      none, an empty frame with the fixed five column names. Either way the
      summary counts exactly the drifted rows among all rows. */
  function ResultFrame(results: seq<DriftRow>): (f: Frame)
    ensures |f.rows| == |results| && multiset(f.rows) == multiset(results)
    ensures SortedByP(f.rows) && NoneRows(f.rows) == NoneRows(results)
    ensures f.header == if results == [] then EmptyHeader else RowHeader
    ensures Summary(f) == (CountDrift(results), |results|)
  {
    if results != [] then
      var sorted := SortByP(results);
      CountDriftPermutation(sorted, results);
      Frame(RowHeader, sorted)
    else
      Frame(EmptyHeader, [])
  }

  /** One more candidate column adds its row at the end. */
  lemma RowsNext(cands: Table, c: Column, ref: Table, alpha: real, ks: KsTest)
    requires forall d :: d in cands ==> HasColumn(ref, d.name)
    requires HasColumn(ref, c.name)
    ensures Rows(cands + [c], ref, alpha, ks) == Rows(cands, ref, alpha, ks) + [ColumnRow(c, ref, alpha, ks)]
  {
    var next := cands + [c];
    assert next[..|next| - 1] == cands;
  }

  /** The frame `detect_drift` returns: one row per candidate column and no
      other, each the row of its column, in p-value order with missing
      p-values last and those in candidate order; the five fixed column names exactly when no column is a
      candidate; and a summary that counts the drifted candidate columns out
      of all candidate columns. */
  function Report(dfNew: Table, dfRef: Table, alpha: real, numericOnly: bool, ks: KsTest): (f: Frame)
    ensures var cands := Candidates(dfNew, dfRef, numericOnly);
            var rows := Rows(cands, dfRef, alpha, ks);
            |f.rows| == |cands|
            && multiset(f.rows) == multiset(rows)
            && SortedByP(f.rows)
            && NoneRows(f.rows) == NoneRows(rows)
            && f.header == (if cands == [] then EmptyHeader else RowHeader)
            && Summary(f) == (CountDrift(rows), |cands|)
  {
    ResultFrame(Rows(Candidates(dfNew, dfRef, numericOnly), dfRef, alpha, ks))
  }

  /** The drift detector of edaautopy.py:
      the loop builds the row of every candidate column in `df_new` order,
      then the rows are sorted (or the fixed empty frame is returned). */
  method DetectDrift(dfNew: Table, dfRef: Table, alpha: real, numericOnly: bool, ks: KsTest)
    returns (f: Frame)
    ensures f == Report(dfNew, dfRef, alpha, numericOnly, ks)
  {
    var cols := SelectColumns(dfNew, numericOnly);
    var results: seq<DriftRow> := [];
    for i := 0 to |cols|
      invariant results == Rows(SharedWith(cols[..i], dfRef), dfRef, alpha, ks)
    {
      var col := cols[i];
      SharedWithNext(cols, i, dfRef);
      ghost var done := SharedWith(cols[..i], dfRef);
      if HasColumn(dfRef, col.name) {
        RowsNext(done, col, dfRef, alpha, ks);
        var a := DropNa(col.values);
        var b := DropNa(dfRef[ColumnIndex(dfRef, col.name)].values);
        assert (a, b) == Samples(col, dfRef);
        if |a| < MinSamples || |b| < MinSamples {
          GuardedRow(col, dfRef, alpha, ks);
          results := results + [DriftRow(col.name, None, None, false, TooFewSamples, Insufficient)];
          continue;
        }
        TestedRow(col, dfRef, alpha, ks);
        var out := ks(a, b);
        var drift := DriftFlag(out.p, alpha);
        var interp := Interpret(out.stat, out.p, drift);
        results := results + [DriftRow(col.name, out.stat, out.p, drift, Blank, interp)];
      } else {
        assert SharedWith(cols[..i + 1], dfRef) == done + [] == done;
      }
    }
    assert cols[..|cols|] == cols;
    assert SharedWith(cols, dfRef) == Candidates(dfNew, dfRef, numericOnly);
    f := ResultFrame(results);
  }
}

=== FILE: tables.dfy ===
/** Tables, columns and the pieces of dataframe behaviour that both drift
    detectors and the KPI helper rely on: column membership and lookup,
    dropping missing values, dtype selection, first-match search, and the
    two-sample Kolmogorov-Smirnov test as an uninterpreted oracle. */
module Tables {

  datatype Option<+T> = None | Some(value: T)

  /** One column of a dataframe. A missing cell (None or NaN) is `None`.
      `numeric` says whether the dataframe library counts its dtype as numeric. */
  datatype Column = Column(name: string, numeric: bool, values: seq<Option<real>>)

  /** A dataframe, its columns in table order. */
  type Table = seq<Column>

  /** What the two-sample Kolmogorov-Smirnov test returns: the statistic and the p-value, each of which
      may come back NaN (`None`). */
  datatype KsResult = KsResult(stat: Option<real>, p: Option<real>)

  /** The test itself is foreign numeric code: any function of the two
      cleaned samples. */
  type KsTest = (seq<real>, seq<real>) -> KsResult

  /** The minimum-sample guard shared by both drift detectors. */
  const MinSamples: nat := 10

  /** Whether some column of the table carries this name. */
  predicate HasColumn(t: Table, name: string)
  {
    exists i :: 0 <= i < |t| && t[i].name == name
  }

  /** Position of the column that indexing the table by name yields: the
      first column carrying that name. */
  function ColumnIndex(t: Table, name: string): (i: nat)
    requires HasColumn(t, name)
    ensures i < |t| && t[i].name == name
    ensures forall j :: 0 <= j < i ==> t[j].name != name
  {
    if t[0].name == name then 0
    else
      assert HasColumn(t[1..], name) by {
        var k :| 0 <= k < |t| && t[k].name == name;
        assert t[1..][k - 1].name == name;
      }
      ColumnIndex(t[1..], name) + 1
  }

  /** Dropping missing cells: the present values, in their original order. */
  function DropNa(vs: seq<Option<real>>): (r: seq<real>)
    ensures |r| == |vs| - multiset(vs)[None]
    ensures forall x :: x in r <==> Some(x) in vs
    decreases |vs|
  {
    if vs == [] then []
    else
      var init, last := vs[..|vs| - 1], vs[|vs| - 1];
      assert vs == init + [last];
      match last
      case None => DropNa(init)
      case Some(x) => DropNa(init) + [x]
  }

  /** Dropping missing values keeps the order: it distributes over
      concatenation, so each present value keeps its place among the others. */
  lemma {:induction false} DropNaAppend(a: seq<Option<real>>, b: seq<Option<real>>)
    ensures DropNa(a + b) == DropNa(a) + DropNa(b)
    decreases |b|
  {
    if b == [] {
      assert a + b == a;
    } else {
      var init := b[..|b| - 1];
      assert b == init + [b[|b| - 1]];
      assert a + b == (a + init) + [b[|b| - 1]];
      DropNaAppend(a, init);
    }
  }

  /** The columns of `s` that `keep` accepts, in table order. */
  function Filter(s: Table, keep: Column -> bool): (r: Table)
    ensures |r| <= |s|
    ensures forall c :: c in r ==> c in s && keep(c)
    decreases |s|
  {
    if s == [] then []
    else
      var init, last := s[..|s| - 1], s[|s| - 1];
      assert s == init + [last];
      Filter(init, keep) + if keep(last) then [last] else []
  }

  /** Filtering keeps each accepted column exactly as often as it occurs,
      and drops every other column. */
  lemma {:induction false} FilterCount(s: Table, keep: Column -> bool)
    ensures forall c :: multiset(Filter(s, keep))[c] == if keep(c) then multiset(s)[c] else 0
    decreases |s|
  {
    if s != [] {
      var init, last := s[..|s| - 1], s[|s| - 1];
      assert s == init + [last];
      FilterCount(init, keep);
    }
  }

  /** Filtering one more column appends it exactly when it is accepted. */
  lemma FilterSnoc(s: Table, x: Column, keep: Column -> bool)
    ensures Filter(s + [x], keep) == Filter(s, keep) + if keep(x) then [x] else []
  {
    var sx := s + [x];
    assert sx[..|sx| - 1] == s && sx[|sx| - 1] == x;
  }

  /** Filtering keeps the table order: it distributes over concatenation. */
  lemma {:induction false} FilterAppend(a: Table, b: Table, keep: Column -> bool)
    ensures Filter(a + b, keep) == Filter(a, keep) + Filter(b, keep)
    decreases |b|
  {
    if b == [] {
      assert a + b == a;
    } else {
      var init, last := b[..|b| - 1], b[|b| - 1];
      var tail := if keep(last) then [last] else [];
      calc {
        Filter(a + b, keep);
        { assert a + b == (a + init) + [last]; }
        Filter((a + init) + [last], keep);
        { FilterSnoc(a + init, last, keep); }
        Filter(a + init, keep) + tail;
        { FilterAppend(a, init, keep); }
        (Filter(a, keep) + Filter(init, keep)) + tail;
        Filter(a, keep) + (Filter(init, keep) + tail);
        { FilterSnoc(init, last, keep); assert init + [last] == b; }
        Filter(a, keep) + Filter(b, keep);
      }
    }
  }

  /** The numeric columns of the table, or all of them when `numericOnly` is false. */
  function SelectColumns(t: Table, numericOnly: bool): (r: Table)
    ensures forall c :: c in r ==> c in t && (!numericOnly || c.numeric)
  {
    Filter(t, (c: Column) => !numericOnly || c.numeric)
  }

  /** The columns of `cols` whose name the reference table also has. */
  function SharedWith(cols: Table, ref: Table): (r: Table)
    ensures forall c :: c in r ==> c in cols && HasColumn(ref, c.name)
  {
    Filter(cols, (c: Column) => HasColumn(ref, c.name))
  }

  /** The columns a drift detector produces a row for, in `df_new` order. */
  function Candidates(dfNew: Table, dfRef: Table, numericOnly: bool): (r: Table)
    ensures forall c :: c in r ==> c in dfNew && (!numericOnly || c.numeric) && HasColumn(dfRef, c.name)
  {
    SharedWith(SelectColumns(dfNew, numericOnly), dfRef)
  }

  /** The candidates are each selected column of `df_new` whose name also
      occurs in `df_ref`, exactly as many times as it occurs in `df_new`,
      and nothing else. */
  lemma CandidatesCount(dfNew: Table, dfRef: Table, numericOnly: bool)
    ensures forall c :: multiset(Candidates(dfNew, dfRef, numericOnly))[c] ==
                          if (!numericOnly || c.numeric) && HasColumn(dfRef, c.name) then multiset(dfNew)[c] else 0
  {
    FilterCount(dfNew, (c: Column) => !numericOnly || c.numeric);
    FilterCount(SelectColumns(dfNew, numericOnly), (c: Column) => HasColumn(dfRef, c.name));
  }

  /** The candidates keep the column order of `df_new`: selection distributes
      over splitting the table. */
  lemma CandidatesAppend(a: Table, b: Table, dfRef: Table, numericOnly: bool)
    ensures Candidates(a + b, dfRef, numericOnly) == Candidates(a, dfRef, numericOnly) + Candidates(b, dfRef, numericOnly)
  {
    FilterAppend(a, b, (c: Column) => !numericOnly || c.numeric);
    FilterAppend(SelectColumns(a, numericOnly), SelectColumns(b, numericOnly), (c: Column) => HasColumn(dfRef, c.name));
  }

  /** The cleaned samples of column `c` in the new table and of the column of
      the same name in the reference table. */
  function Samples(c: Column, ref: Table): (ab: (seq<real>, seq<real>))
    requires HasColumn(ref, c.name)
    ensures |ab.0| == |c.values| - multiset(c.values)[None]
    ensures var r := ref[ColumnIndex(ref, c.name)].values;
            |ab.1| == |r| - multiset(r)[None]
  {
    (DropNa(c.values), DropNa(ref[ColumnIndex(ref, c.name)].values))
  }

  /** One more column of the loop adds its row exactly when it is shared. */
  lemma SharedWithNext(cols: Table, i: nat, ref: Table)
    requires i < |cols|
    ensures SharedWith(cols[..i + 1], ref)
            == SharedWith(cols[..i], ref) + if HasColumn(ref, cols[i].name) then [cols[i]] else []
  {
    assert cols[..i + 1][..i] == cols[..i];
  }

  /** The minimum-sample guard on the cleaned samples: either side below ten. */
  predicate BelowMinimum(a: seq<real>, b: seq<real>)
  {
    |a| < MinSamples || |b| < MinSamples
  }

  /** The guard counts present cells only: it fires exactly when the new
      column or the reference column of the same name has fewer than ten
      non-missing cells, however many missing ones it holds. */
  lemma GuardCountsPresentCells(c: Column, ref: Table)
    requires HasColumn(ref, c.name)
    ensures var r := ref[ColumnIndex(ref, c.name)].values;
            BelowMinimum(Samples(c, ref).0, Samples(c, ref).1)
            <==> |c.values| - multiset(c.values)[None] < MinSamples || |r| - multiset(r)[None] < MinSamples
  {
  }

  /** The drift flag: the p-value is below alpha; a NaN p-value compares false. */
  predicate DriftFlag(p: Option<real>, alpha: real)
  {
    p.Some? && p.value < alpha
  }

  /** A NaN p-value never drifts, and raising alpha never clears a flag. */
  lemma DriftFlagMonotone(p: Option<real>, a1: real, a2: real)
    requires a1 <= a2
    ensures !DriftFlag(None, a1)
    ensures DriftFlag(p, a1) ==> DriftFlag(p, a2)
  {
  }

  /** First-match search over the columns in table order: the position of
      the first column satisfying `p`, or None when no column does. */
  function FirstWhere(t: Table, p: Column -> bool): (r: Option<nat>)
    ensures r.None? <==> forall i :: 0 <= i < |t| ==> !p(t[i])
    ensures r.Some? ==> r.value < |t| && p(t[r.value])
    ensures r.Some? ==> forall j :: 0 <= j < r.value ==> !p(t[j])
  {
    if t == [] then None
    else if p(t[0]) then Some(0)
    else
      match FirstWhere(t[1..], p)
      case None => None
      case Some(i) => Some(i + 1)
  }
}
